=== FILE: README.md ===
# generate-grid in Dafny

A model of `generate-grid.py`, a Python 2 script that cuts a rectangular
extent into a grid of square boxes. It prints one SQL transaction, which:

- loads the boxes into a temporary `boxes` table;
- clips every input geometry against the boxes it overlaps, using a
  three-way CASE;
- aggregates the clipped fragments box by box into an output table, with
  `collect` or `union`.

The model has four modules:

- `Grid` (grid.dfy) has the generator:
  - `frange` and `box_coords` become `Frange` and `BoxCoords`, over exact
    reals;
  - a reference grid defined by column and row index (`GridCell`,
    `GridCells`);
  - the proof that `box_coords` yields exactly that grid, in column-major
    order, with its count, ordering, adjacency, disjointness and coverage.
- `Identifiers` (identifiers.dfy) has Python's `str.split` for a
  one-character separator, `join` as its inverse, and the `table.column`
  split that `main` performs.
- `Classification` (classification.dfy) has the CASE of the
  classification insert as a priority function over three booleans. A
  point-set reading of the spatial predicates shows what the CASE computes.
- `Pipeline` (pipeline.dfy) has `main` as a pure function. It returns the
  statements `main` prints, as abstract constructors, plus the exception
  that ends the run, if any. It also has lemmas about the shape of the
  transaction, and an abstract meaning for the aggregation statements.

`runs.dfy` holds the shared `Option`, `Result` and `Run` types and the
exceptions.

A Python generator, or a function that prints, is modelled as a
`Run(out, raised)`. `out` is everything yielded or printed. `raised` is the
exception that ended the run, if any. Exceptions in the source surface
lazily, after some output has already been produced, so a run is not
simply a success or a failure.

Coordinates are exact reals. The coordinate reached after `n` additions of
`inc` is the recursive `Grid.Offset`, equal to `lo + n * inc`
(`Grid.OffsetIsProduct`). The closed forms use real division and `Floor`.

## Model

| member | source | states |
|---|---|---|
| Grid.Frange | generate-grid.py:5-12 | raises AssertionError, yielding nothing, exactly when start > stop; otherwise yields start, start+step, … (the `min` never alters a value), each value in [start, stop), empty exactly when start == stop, and stops at the first value reaching stop |
| Grid.FrangeIncreasing | generate-grid.py:9-12 | the values yielded strictly increase |
| Grid.FrangeDefaultStep | generate-grid.py:7 | a missing step and a zero step both count by 1.0 |
| Grid.ColumnBoxes | generate-grid.py:22-25 | the inner loop emits the box (x, y, x+inc, y+inc) for each leading value y whose top y+inc stays within top; it breaks at the first y reaching past top (not raising), and re-raises the inner range's exception only when no break happened |
| Grid.Columns | generate-grid.py:18-25 | the outer loop: every box starts at one of the outer values, is inc wide and high, and lies inside the extent; no column when the first x+inc passes right; AssertionError with no boxes when the first column fits but bottom > top |
| Grid.BoxCoords | generate-grid.py:14-29 | every box is exactly inc wide and high and lies inside the extent (none clamped); raises AssertionError, with nothing yielded, exactly when left > right, or when left < right, left+inc ≤ right and bottom > top |
| Grid.BoxCoordsIsGrid | generate-grid.py:14-25 | on a valid extent the boxes are exactly the reference grid of floor((right-left)/inc) columns by floor((top-bottom)/inc) rows, column by column, each bottom to top, and nothing is raised |
| Grid.BoxCount | generate-grid.py:18-25 | the number of boxes is floor((right-left)/inc) * floor((top-bottom)/inc) |
| Grid.BoxOrder | generate-grid.py:18-25 | boxes come in column-major order; each box either sits directly on the previous one or starts the next column, flush against it, at the bottom edge |
| Grid.BoxesDisjoint | generate-grid.py:18-25 | no two boxes overlap |
| Grid.GridEdges | generate-grid.py:18-25 | on every valid extent, an empty grid included, the grid's right edge lies in (right-inc, right] and its top edge in (top-inc, top] |
| Grid.BoxesCover | generate-grid.py:18-25 | every point of the extent left of the grid's right edge and below its top edge lies in a box (those edges are the ones `Grid.GridEdges` brackets), so only a strip narrower than inc stays uncovered on the right and top |
| Grid.ExactMultiplesCover | generate-grid.py:18-25 | when width and height are whole multiples of inc, every point of the extent lies in a box |
| Grid.ThreeByTwo | generate-grid.py:14-29 | a 3 by 2 extent with increment 1 gives six boxes |
| Grid.EmptyExtent | generate-grid.py:14-29 | a zero-width or zero-height extent gives no boxes and no exception |
| Grid.ZeroIncrementDegenerate | generate-grid.py:7-25 | on the unit extent, increment 0 is accepted: the ranges step by 1.0 and the run yields one zero-size box (that every box is exactly inc wide and high, for any inc, is `Grid.BoxCoords`'s size clause) |
| Identifiers.Split | generate-grid.py:47-50 | `str.split` with a one-character separator: at least one piece, at least two exactly when the separator occurs, and no piece contains it |
| Identifiers.SplitCount | generate-grid.py:47-50 | there is one more piece than there are separators |
| Identifiers.SplitJoin | generate-grid.py:47-50 | joining the pieces of a split with the separator gives back the string |
| Identifiers.JoinSplit | generate-grid.py:47-50 | splitting a join of separator-free pieces gives back the pieces |
| Identifiers.TableColumn | generate-grid.py:47-50 | `split(".")[0]` and `split(".")[1]`: IndexError exactly when there is no dot; otherwise two dot-free parts that, rejoined with a dot, are a prefix of the identifier ending at its end or at its second dot, so the column is the whole piece between the first and second dot |
| Identifiers.TableColumnRoundTrip | generate-grid.py:47-50 | a dot-free table and column joined by a dot split back into that table and column |
| Classification.Classify | generate-grid.py:74-79 | the CASE as a priority over its three tests: the box when it lies within the geometry; otherwise the geometry when it lies within the box; otherwise the intersection when they intersect; otherwise NULL. Its meaning over point sets is given by `Classification.FragmentCases` and `Classification.FragmentIsIntersection` |
| Classification.FragmentIsIntersection | generate-grid.py:74-79 | whichever CASE branch is taken, the fragment is exactly the part of the geometry inside the box, and it is NULL exactly when the two share no point |
| Classification.FragmentCases | generate-grid.py:74-79 | the priority of the branches: the box is kept whole when it lies in the geometry (even when they are equal); the geometry is kept whole when it lies strictly inside the box; the intersection is taken when they overlap and neither contains the other |
| Pipeline.Aggregation | generate-grid.py:88-97 | succeeds exactly for `collect` and `union`; otherwise NotImplementedError. It prints two statements for union with truncate and one otherwise, starting with the grouped insert; the in-place ST_UnaryUnion update appears exactly for union with truncate; a direct ST_Union insert appears exactly for union without truncate; every statement targets the output table and column |
| Pipeline.Script | generate-grid.py:47-126 | the run completes exactly when both identifiers contain a dot, the box generator completes, and the mode is collect or union; a missing dot raises IndexError before anything is printed; a generator exception ends the run with that exception |
| Pipeline.ScriptHead | generate-grid.py:52-60 | the stream opens with the preamble: BEGIN first; TRUNCATE of the output table immediately after it exactly when truncation is requested |
| Pipeline.ScriptInsertsEveryBox | generate-grid.py:62-84 | one box insert per generated box, in generator order, each before the classification insert |
| Pipeline.ScriptTransaction | generate-grid.py:52-126 | a completed run: BEGIN first and COMMIT last, each only once; CREATE TEMPORARY TABLE ungrouped_output and its AddGeometryColumn (SRID 4326, MULTIPOLYGON, 2 dimensions) immediately before a single classification insert, followed at once by DROP TABLE boxes; between that drop and the DROP TABLE ungrouped_output that precedes COMMIT stand exactly the mode's aggregation statements, and no aggregation statement stands anywhere else |
| Pipeline.ScriptUnsupportedAggregation | generate-grid.py:52-126 | an unknown mode raises NotImplementedError after the whole run up to `DROP TABLE boxes` has been printed: the preamble, every box insert, CREATE TEMPORARY TABLE ungrouped_output, its AddGeometryColumn and the classification insert. Neither DROP TABLE ungrouped_output nor COMMIT is printed |
| Pipeline.ScriptGridFailure | generate-grid.py:52-65 | a generator exception stops the run after the preamble and the box inserts before it, with no classification and no COMMIT |
| Pipeline.Main | generate-grid.py:47-126 | `main` fed by `box_coords` (line 62): IndexError with nothing printed when an identifier lacks a dot; otherwise the boxes inserted are exactly the generator's; the run completes exactly when the identifiers split, the generator completes and the mode is collect or union. `Pipeline.MainInsertsGrid` and `Pipeline.MainEmptyExtent` state what this gives on valid and zero-area extents |
| Pipeline.MainInsertsGrid | generate-grid.py:62-99 | on a valid extent `main` inserts exactly the grid's boxes, floor((right-left)/inc) * floor((top-bottom)/inc) of them, and commits exactly when the mode is collect or union |
| Pipeline.MainEmptyExtent | generate-grid.py:52-126 | a zero-area extent still gives a complete transaction, from BEGIN to COMMIT, with no box inserted |
| Pipeline.UnionPathsAgree | generate-grid.py:90-95 | the two `union` paths write the same rows into an empty output table: one dissolved geometry per box |
| Pipeline.UnionWithoutTruncateAppends | generate-grid.py:94-95 | `union` without truncate keeps every row already in the output table and appends one per box, so a rerun duplicates rows |
| Pipeline.CollectAndUnionCoverSamePoints | generate-grid.py:88-95 | `collect` keeps every fragment as a part and `union` dissolves them into one; per box, both cover the same points |

## Left out

- Argument parsing (generate-grid.py:33-45) is not modelled. `main` takes its parsed values as `Options` plus an extent and an increment. This leaves out:
  - the defaults;
  - a missing `--input` or `--output`, which raises AttributeError on `None.split`: at line 47 for `--output`, at line 49 for `--input`;
  - `choices="collect, union"`, which is a string, so argparse accepts any substring of it (`"coll"`, `","`). Such values reach the `else` at line 96 and raise NotImplementedError at line 97, which `Pipeline.ScriptUnsupportedAggregation` covers.
- Python assertions are assumed to be enabled. Under `python -O` the `assert` at generate-grid.py:8 is removed. Then start > stop gives an empty range, and left > right or bottom > top give no boxes and a full BEGIN…COMMIT run instead of AssertionError.
- Printing is modelled as the returned statement sequence. Statements are abstract constructors; their SQL text is not modelled.
- Floating point is not modelled. Coordinates are exact reals. Drift from repeated `cur += step` and the float-to-text rendering inside ST_MakeBox2D (generate-grid.py:29) are outside the model. So `Grid.BoxCount` and `Grid.BoxCoordsIsGrid` hold for exact arithmetic only.
- PostGIS semantics are not modelled; the database computes them.
  - In `Classification`, the spatial predicates of the CASE are plain booleans or point sets.
  - The `&&` bounding-box join that pairs boxes with geometries is not modelled.
  - ST_CollectionExtract(…, 3), which keeps only polygons, is not modelled: a fragment is its point set.
  - `Pipeline.Effect` gives the aggregation statements an abstract meaning over rows of point sets. Grouping by box is an input to it, not computed from the classification insert.
- The `if False:` block (generate-grid.py:102-124) is dead code. The commented-out shapely and insert lines (27-28, 64) are not modelled either.
- setup.py holds packaging metadata only.
- Grid.BoxCoords: a negative increment is excluded by a precondition, because the source loops forever then. The one exception is bottom > top with the first column fitting: there the inner range's assertion stops the run, and the model also excludes that case.
- Grid.Frange: a negative step with start < stop is excluded by a precondition, because the source loop does not terminate.

### Behaviour of the code worth noting

- An increment of 0 is accepted. `frange` then steps by 1.0, while every box has zero size (`Grid.BoxCoords`'s size clause; `Grid.ZeroIncrementDegenerate` shows the unit extent).
- Output is printed before an exception surfaces, so a failing run leaves a partial transaction:
  - An unknown aggregation mode raises after every statement up to `DROP TABLE boxes` has been printed (`Pipeline.ScriptUnsupportedAggregation`).
  - bottom > top raises lazily, after the preamble, and only when the first column fits (`Grid.BoxCoords`, `Pipeline.ScriptGridFailure`).
  - left > right also raises after the preamble.
  - Only a missing dot in an identifier raises before anything is printed.
- A trailing column or row that would pass the right or top edge is dropped, not clamped, so every box is exactly one increment wide and high.

=== FILE: classification.dfy ===
/** The CASE expression of the classification insert: which fragment of a
    (box, input geometry) pair is kept.  The spatial predicates are computed
    by the database; here they are plain booleans, and a point-set reading
    of them states what the CASE achieves. */
module Classification {

  /** The outcomes of the CASE, in the order its branches are tried:
      ST_Multi(box), ST_Multi(geometry), the polygonal part of
      ST_Intersection(geometry, box), and NULL. */
  datatype Fragment = CellMulti | GeomMulti | PolyIntersection | Null

  /** The CASE: the first branch whose test holds wins. */
  function Classify(cellWithinGeom: bool, geomWithinCell: bool, intersects: bool): (f: Fragment)
    ensures f == CellMulti <==> cellWithinGeom
    ensures f == GeomMulti <==> !cellWithinGeom && geomWithinCell
    ensures f == PolyIntersection <==> !cellWithinGeom && !geomWithinCell && intersects
    ensures f == Null <==> !cellWithinGeom && !geomWithinCell && !intersects
  {
    if cellWithinGeom then CellMulti
    else if geomWithinCell then GeomMulti
    else if intersects then PolyIntersection
    else Null
  }

  /** ST_Within(a, b) read over point sets: every point of `a` is in `b`, and
      `a` is not empty. */
  predicate Within<P>(a: set<P>, b: set<P>) {
    a <= b && a != {}
  }

  /** ST_Intersects(a, b) read over point sets. */
  predicate Intersects<P>(a: set<P>, b: set<P>) {
    a * b != {}
  }

  /** The points a fragment stands for, given the box and the geometry. */
  function FragmentPoints<P>(f: Fragment, cell: set<P>, geom: set<P>): set<P> {
    match f
    case CellMulti => cell
    case GeomMulti => geom
    case PolyIntersection => cell * geom
    case Null => {}
  }

  /** The fragment the CASE picks for a box and a geometry given as point sets. */
  function FragmentOf<P>(cell: set<P>, geom: set<P>): Fragment {
    Classify(Within(cell, geom), Within(geom, cell), Intersects(geom, cell))
  }

  /** Whatever branch the CASE takes, the fragment is exactly the part of the
      geometry inside the box; the containment branches are shortcuts to the
      same answer, so their priority never changes the result.  The fragment
      is NULL exactly when box and geometry share no point. */
  lemma FragmentIsIntersection<P>(cell: set<P>, geom: set<P>)
    ensures FragmentPoints(FragmentOf(cell, geom), cell, geom) == cell * geom
    ensures FragmentOf(cell, geom) == Null <==> cell * geom == {}
  {
    if Within(cell, geom) {
      assert cell * geom == cell;
    } else if Within(geom, cell) {
      assert cell * geom == geom;
    }
  }

  /** What each branch of the CASE means for the two point sets: the box is
      kept whole when it lies inside the geometry (even when the two are
      equal, because that branch is tried first); the geometry is kept whole
      when it lies strictly inside the box; the clipped part is taken when
      they overlap without either containing the other. */
  lemma FragmentCases<P>(cell: set<P>, geom: set<P>)
    ensures FragmentOf(cell, geom) == CellMulti <==> cell != {} && cell <= geom
    ensures FragmentOf(cell, geom) == GeomMulti <==> geom != {} && geom < cell
    ensures FragmentOf(cell, geom) == PolyIntersection <==>
              cell * geom != {} && !(cell <= geom) && !(geom <= cell)
  {
    if FragmentOf(cell, geom) == PolyIntersection {
      var p :| p in geom * cell;
      assert p in cell && p in geom;
    }
    if cell * geom != {} && !(cell <= geom) && !(geom <= cell) {
      var p :| p in cell * geom;
      assert p in geom && p in cell;
    }
  }
}

=== FILE: grid.dfy ===
/** The grid generator: `frange` and `box_coords` of generate-grid.py, over
    exact real arithmetic.  A box is modelled by its four coordinates; the
    ST_MakeBox2D text it is rendered into is left opaque. */
module Grid {
  import opened Runs

  /** The area to be gridded, as passed to `box_coords`. */
  datatype Extent = Extent(top: real, bottom: real, left: real, right: real)

  /** One generated box: the corners (x, y) and (next_x, next_y). */
  datatype Cell = Cell(xMin: real, yMin: real, xMax: real, yMax: real)

  /** Python's two-argument `min`. */
  function Min(a: real, b: real): real {
    if b < a then b else a
  }

  /** Python's `step or 1.0`: a missing step and a zero step both become 1.0. */
  function EffectiveStep(step: Option<real>): real {
    if step.None? || step.value == 0.0 then 1.0 else step.value
  }

  // ---------------------------------------------------------------------------
  // frange
  // ---------------------------------------------------------------------------

  /** The value reached from `lo` after `n` additions of `inc`; with exact
      arithmetic this is `lo + n * inc` (see OffsetIsProduct). */
  function Offset(lo: real, inc: real, n: nat): real
    decreases n
  {
    if n == 0 then lo else Offset(lo + inc, inc, n - 1)
  }

  /** The `while cur < stop: yield min(cur, stop); cur += step` loop of
      `frange`.  Every value yielded is the accumulated `cur` itself: the
      `min` never changes it. */
  function Accumulate(cur: real, stop: real, step: real): (ys: seq<real>)
    requires step > 0.0 || cur >= stop
    ensures forall i :: 0 <= i < |ys| ==> ys[i] == Offset(cur, step, i)
    ensures forall i :: 0 <= i < |ys| ==> cur <= ys[i] < stop
    ensures Offset(cur, step, |ys|) >= stop
    decreases if cur < stop then ((stop - cur) / step).Floor + 1 else 0
  {
    if cur < stop then
      DivShift(stop - cur, step);
      [Min(cur, stop)] + Accumulate(cur + step, stop, step)
    else []
  }

  /** Dividing `d - step` by `step` lands one below `d / step`. */
  lemma DivShift(d: real, step: real)
    requires step > 0.0
    ensures (d - step) / step == d / step - 1.0
  {
    var q := d / step;
    var r := (d - step) / step;
    assert q * step == d;
    assert r * step == d - step;
    var z := r - q + 1.0;
    assert z * step == 0.0;
    assert z > 0.0 ==> z * step > 0.0;
    assert z < 0.0 ==> (-z) * step > 0.0;
  }

  /** `frange(start, stop, step)` run to exhaustion.  A negative step with
      `start < stop` never terminates in the source and is excluded. */
  function Frange(start: real, stop: real, step: Option<real>): (g: Run<real>)
    requires start >= stop || EffectiveStep(step) > 0.0
    ensures g.raised.Some? <==> start > stop
    ensures g.raised.Some? ==> g == Run([], Some(AssertionError))
    ensures g.out == [] <==> start >= stop
    ensures forall i :: 0 <= i < |g.out| ==> g.out[i] == Offset(start, EffectiveStep(step), i)
    ensures forall i :: 0 <= i < |g.out| ==> start <= g.out[i] < stop
    ensures start <= stop ==> Offset(start, EffectiveStep(step), |g.out|) >= stop
  {
    var s := EffectiveStep(step);
    if !(start <= stop) then Run([], Some(AssertionError))
    else Run(Accumulate(start, stop, s), None)
  }

  /** The values `frange` yields strictly increase. */
  lemma FrangeIncreasing(start: real, stop: real, step: Option<real>)
    requires start >= stop || EffectiveStep(step) > 0.0
    ensures var ys := Frange(start, stop, step).out;
            forall i, j :: 0 <= i < j < |ys| ==> ys[i] < ys[j]
  {
    var ys := Frange(start, stop, step).out;
    forall i, j | 0 <= i < j < |ys|
      ensures ys[i] < ys[j]
    {
      OffsetStrictlyIncreasing(start, EffectiveStep(step), i, j);
    }
  }

  // ---------------------------------------------------------------------------
  // box_coords
  // ---------------------------------------------------------------------------

  /** The inner loop of `box_coords` for the column at `x`: walk the values
      `ys` that the inner `frange` yields, stop at the first whose box would
      reach above `top`, and re-raise the inner generator's exception
      `raised` if its values run out without such a break. */
  function ColumnBoxes(x: real, inc: real, top: real, ys: seq<real>, raised: Option<Exception>): (g: Run<Cell>)
    ensures |g.out| <= |ys|
    ensures forall j :: 0 <= j < |g.out| ==> g.out[j] == Cell(x, ys[j], x + inc, ys[j] + inc)
    ensures forall j :: 0 <= j < |g.out| ==> ys[j] + inc <= top
    ensures |g.out| < |ys| ==> ys[|g.out|] + inc > top && g.raised.None?
    ensures |g.out| == |ys| ==> g.raised == raised
    decreases |ys|
  {
    if |ys| == 0 then Run([], raised)
    else if ys[0] + inc > top then Run([], None)
    else
      var rest := ColumnBoxes(x, inc, top, ys[1..], raised);
      Run([Cell(x, ys[0], x + inc, ys[0] + inc)] + rest.out, rest.raised)
  }

  /** The outer loop of `box_coords` over the values `xs` the outer `frange`
      yields (then raising `raised`): stop at the first column whose right
      edge would pass `e.right`, otherwise emit the column's boxes. */
  function Columns(xs: seq<real>, raised: Option<Exception>, e: Extent, inc: real): (g: Run<Cell>)
    requires inc >= 0.0 || |xs| == 0
    ensures Placed(g.out, xs, e, inc)
    ensures |xs| == 0 ==> g == Run([], raised)
    ensures |xs| > 0 && xs[0] + inc > e.right ==> g == Run([], None)
    ensures |xs| > 0 && xs[0] + inc <= e.right && e.bottom > e.top ==> g == Run([], Some(AssertionError))
    ensures e.bottom <= e.top && raised.None? ==> g.raised.None?
    decreases |xs|
  {
    if |xs| == 0 then Run([], raised)
    else if xs[0] + inc > e.right then Run([], None)
    else
      var ys := Frange(e.bottom, e.top, Some(inc));
      var column := ColumnBoxes(xs[0], inc, e.top, ys.out, ys.raised);
      if column.raised.Some? then column
      else
        var rest := Columns(xs[1..], raised, e, inc);
        PlacedConcat(column.out, rest.out, xs, e, inc);
        Run(column.out + rest.out, rest.raised)
  }

  /** Every box starts at one of the values `xs`, is `inc` wide and high,
      and lies within the extent (left of its right edge, between its bottom
      and top). */
  predicate Placed(cells: seq<Cell>, xs: seq<real>, e: Extent, inc: real) {
    forall j :: 0 <= j < |cells| ==>
      && cells[j].xMin in xs && cells[j].xMax == cells[j].xMin + inc && cells[j].xMax <= e.right
      && cells[j].yMax == cells[j].yMin + inc && e.bottom <= cells[j].yMin && cells[j].yMax <= e.top
  }

  lemma PlacedConcat(column: seq<Cell>, rest: seq<Cell>, xs: seq<real>, e: Extent, inc: real)
    requires 0 < |xs| && Placed(column, xs[..1], e, inc) && Placed(rest, xs[1..], e, inc)
    ensures Placed(column + rest, xs, e, inc)
  {
    assert xs == xs[..1] + xs[1..];
  }

  /** `box_coords(top, bottom, left, right, increment)` run to exhaustion.
      A negative increment never terminates in the source unless the outer
      range is empty, so it is excluded otherwise. */
  function BoxCoords(e: Extent, inc: real): (g: Run<Cell>)
    requires inc >= 0.0 || e.left >= e.right
    ensures forall j :: 0 <= j < |g.out| ==> g.out[j].xMax == g.out[j].xMin + inc && g.out[j].yMax == g.out[j].yMin + inc
    ensures forall j :: 0 <= j < |g.out| ==>
              e.left <= g.out[j].xMin && g.out[j].xMax <= e.right && e.bottom <= g.out[j].yMin && g.out[j].yMax <= e.top
    ensures g.raised.Some? <==>
              e.left > e.right || (e.left < e.right && e.left + inc <= e.right && e.bottom > e.top)
    ensures g.raised.Some? ==> g == Run([], Some(AssertionError))
  {
    var xs := Frange(e.left, e.right, Some(inc));
    Columns(xs.out, xs.raised, e, inc)
  }

  // ---------------------------------------------------------------------------
  // The ideal grid: a reference definition by column and row index
  // ---------------------------------------------------------------------------

  /** An extent and increment for which the count formula is meant. */
  predicate ValidGrid(e: Extent, inc: real) {
    inc > 0.0 && e.left <= e.right && e.bottom <= e.top
  }

  /** The number of whole increments that fit between `lo` and `hi`. */
  function Fit(lo: real, hi: real, inc: real): nat
    requires inc > 0.0 && lo <= hi
  {
    ((hi - lo) / inc).Floor
  }

  function NumColumns(e: Extent, inc: real): nat
    requires ValidGrid(e, inc)
  {
    Fit(e.left, e.right, inc)
  }

  function NumRows(e: Extent, inc: real): nat
    requires ValidGrid(e, inc)
  {
    Fit(e.bottom, e.top, inc)
  }

  /** The cell in column `col` and row `row` of the grid anchored at the
      extent's bottom-left corner. */
  function GridCell(e: Extent, inc: real, col: nat, row: nat): Cell {
    var x := Offset(e.left, inc, col);
    var y := Offset(e.bottom, inc, row);
    Cell(x, y, x + inc, y + inc)
  }

  /** `n` whole increments fit between `lo` and `hi`, and `n + 1` do not. */
  predicate Brackets(lo: real, hi: real, inc: real, n: int) {
    0 <= n && Offset(lo, inc, n) <= hi < Offset(lo, inc, n + 1)
  }

  lemma {:induction false} OffsetSucc(lo: real, inc: real, n: nat)
    ensures Offset(lo, inc, n + 1) == Offset(lo, inc, n) + inc
    decreases n
  {
    if n > 0 {
      OffsetSucc(lo + inc, inc, n - 1);
    }
  }

  lemma {:induction false} OffsetIsProduct(lo: real, inc: real, n: nat)
    ensures Offset(lo, inc, n) == lo + n as real * inc
    decreases n
  {
    if n > 0 {
      OffsetIsProduct(lo + inc, inc, n - 1);
      assert (n - 1) as real * inc + inc == n as real * inc;
    }
  }

  /** With a positive increment, more steps reach strictly further. */
  lemma {:induction false} OffsetStrictlyIncreasing(lo: real, inc: real, m: nat, n: nat)
    requires inc > 0.0 && m < n
    ensures Offset(lo, inc, m) < Offset(lo, inc, n)
    decreases n
  {
    OffsetSucc(lo, inc, n - 1);
    if m < n - 1 {
      OffsetStrictlyIncreasing(lo, inc, m, n - 1);
    }
  }

  lemma MulStrict(a: real, b: real, c: real)
    requires c > 0.0 && a < b
    ensures a * c < b * c
  {
    assert (b - a) * c > 0.0;
  }

  /** Scaling `f <= q < g` by a positive `inc`, where `q * inc == d`. */
  lemma ScaleBracket(d: real, inc: real, q: real, f: real, g: real)
    requires inc > 0.0 && q * inc == d && f <= q < g
    ensures f * inc <= d
    ensures d < g * inc
  {
    if f < q {
      MulStrict(f, q, inc);
    }
    MulStrict(q, g, inc);
  }

  /** `Fit` counts the whole increments that fit, and one more would not fit. */
  lemma FitBounds(lo: real, hi: real, inc: real)
    requires inc > 0.0 && lo <= hi
    ensures Brackets(lo, hi, inc, Fit(lo, hi, inc))
  {
    var q := (hi - lo) / inc;
    var f := q.Floor;
    assert q * inc == hi - lo;
    ScaleBracket(hi - lo, inc, q, f as real, (f + 1) as real);
    OffsetIsProduct(lo, inc, f);
    OffsetIsProduct(lo, inc, f + 1);
  }

  /** When `n` brackets the span, `m` increments fit exactly when `m <= n`. */
  lemma FitsIff(lo: real, hi: real, inc: real, n: int, m: nat)
    requires inc > 0.0 && Brackets(lo, hi, inc, n)
    ensures Offset(lo, inc, m) <= hi <==> m <= n
  {
    if m < n {
      OffsetStrictlyIncreasing(lo, inc, m, n);
    } else if m > n + 1 {
      OffsetStrictlyIncreasing(lo, inc, n + 1, m);
    }
  }

  /** The inner loop over the values from `y0` on, reaching `top`, emits
      exactly `n` boxes, `n` bracketing the span, and does not raise. */
  lemma ColumnLength(x: real, inc: real, top: real, y0: real, ys: seq<real>, n: int)
    requires inc > 0.0 && Brackets(y0, top, inc, n)
    requires forall j :: 0 <= j < |ys| ==> ys[j] == Offset(y0, inc, j)
    requires Offset(y0, inc, |ys|) >= top
    ensures var g := ColumnBoxes(x, inc, top, ys, None);
            g.raised.None? && |g.out| == n
  {
    var g := ColumnBoxes(x, inc, top, ys, None);
    var k := |g.out|;
    if k > 0 {
      OffsetSucc(y0, inc, k - 1);
      FitsIff(y0, top, inc, n, k);
    }
    if k < |ys| {
      OffsetSucc(y0, inc, k);
      FitsIff(y0, top, inc, n, k + 1);
    } else if k < n {
      OffsetStrictlyIncreasing(y0, inc, k, n);
    }
  }

  /** Column `col` of the grid: its `nr` cells, bottom to top. */
  function GridColumn(e: Extent, inc: real, col: nat, nr: nat): seq<Cell> {
    seq(nr, row requires 0 <= row < nr => GridCell(e, inc, col, row))
  }

  /** Columns `col .. nc - 1` of the grid, left to right. */
  function GridColumns(e: Extent, inc: real, col: nat, nc: nat, nr: nat): seq<Cell>
    decreases nc - col
  {
    if col >= nc then [] else GridColumn(e, inc, col, nr) + GridColumns(e, inc, col + 1, nc, nr)
  }

  /** The reference grid: `nc` columns of `nr` cells each. */
  function GridCells(e: Extent, inc: real, nc: nat, nr: nat): seq<Cell> {
    GridColumns(e, inc, 0, nc, nr)
  }

  /** `a * b` by repeated addition; keeps index arithmetic linear for the solver. */
  function Times(a: nat, b: nat): nat
    decreases a
  {
    if a == 0 then 0 else b + Times(a - 1, b)
  }

  lemma {:induction false} TimesIsProduct(a: nat, b: nat)
    ensures Times(a, b) == a * b
    decreases a
  {
    if a > 0 {
      TimesIsProduct(a - 1, b);
    }
  }

  /** Cell `a` comes before cell `b` in column-major order: further left,
      or in the same column and lower. */
  predicate Before(a: Cell, b: Cell) {
    a.xMin < b.xMin || (a.xMin == b.xMin && a.yMin < b.yMin)
  }

  /** Cell `b` directly follows cell `a` in the grid: it is stacked on top of
      `a` in the same column, or it starts the next column at the bottom. */
  predicate Follows(e: Extent, a: Cell, b: Cell) {
    (b.xMin == a.xMin && b.yMin == a.yMax) || (b.xMin == a.xMax && b.yMin == e.bottom)
  }

  /** The interiors of two cells do not overlap. */
  predicate Disjoint(a: Cell, b: Cell) {
    a.xMax <= b.xMin || b.xMax <= a.xMin || a.yMax <= b.yMin || b.yMax <= a.yMin
  }

  lemma {:induction false} GridColumnsLength(e: Extent, inc: real, c0: nat, nc: nat, nr: nat)
    requires c0 <= nc
    ensures |GridColumns(e, inc, c0, nc, nr)| == Times(nc - c0, nr)
    decreases nc - c0
  {
    if c0 < nc {
      GridColumnsLength(e, inc, c0 + 1, nc, nr);
    }
  }

  /** Columns `c0 .. nc - 1` of the grid: their length, their members, and
      their column-major order. */
  lemma {:induction false} GridColumnsShape(e: Extent, inc: real, c0: nat, nc: nat, nr: nat)
    requires inc > 0.0 && c0 <= nc
    ensures var cells := GridColumns(e, inc, c0, nc, nr);
            && |cells| == Times(nc - c0, nr)
            && (forall c :: c in cells <==>
                  exists col: nat, row: nat :: c0 <= col < nc && row < nr && c == GridCell(e, inc, col, row))
            && (forall i, j :: 0 <= i < j < |cells| ==> Before(cells[i], cells[j]))
            && (forall i :: 0 <= i < |cells| - 1 ==> Follows(e, cells[i], cells[i + 1]))
    decreases nc - c0
  {
    if c0 < nc {
      GridColumnsShape(e, inc, c0 + 1, nc, nr);
      GridColumnShape(e, inc, c0, nr);
      GridColumnsJoin(e, inc, c0, nc, nr);
    }
  }

  /** One column of the grid: its members, ordered bottom to top, each
      stacked on the one before. */
  lemma GridColumnShape(e: Extent, inc: real, col: nat, nr: nat)
    requires inc > 0.0
    ensures var cells := GridColumn(e, inc, col, nr);
            && (forall i, j :: 0 <= i < j < |cells| ==> Before(cells[i], cells[j]))
            && (forall i :: 0 <= i < |cells| - 1 ==> Follows(e, cells[i], cells[i + 1]))
  {
    var cells := GridColumn(e, inc, col, nr);
    forall i, j | 0 <= i < j < |cells|
      ensures Before(cells[i], cells[j])
    {
      OffsetStrictlyIncreasing(e.bottom, inc, i, j);
    }
    forall i | 0 <= i < |cells| - 1
      ensures Follows(e, cells[i], cells[i + 1])
    {
      OffsetSucc(e.bottom, inc, i);
    }
  }

  /** Putting column `c0` in front of the later columns keeps the order. */
  lemma GridColumnsJoin(e: Extent, inc: real, c0: nat, nc: nat, nr: nat)
    requires inc > 0.0 && c0 < nc
    requires var rest := GridColumns(e, inc, c0 + 1, nc, nr);
             && |rest| == Times(nc - (c0 + 1), nr)
             && (forall c :: c in rest <==>
                   exists col: nat, row: nat :: c0 + 1 <= col < nc && row < nr && c == GridCell(e, inc, col, row))
             && (forall i, j :: 0 <= i < j < |rest| ==> Before(rest[i], rest[j]))
             && (forall i :: 0 <= i < |rest| - 1 ==> Follows(e, rest[i], rest[i + 1]))
    requires var column := GridColumn(e, inc, c0, nr);
             && (forall i, j :: 0 <= i < j < |column| ==> Before(column[i], column[j]))
             && (forall i :: 0 <= i < |column| - 1 ==> Follows(e, column[i], column[i + 1]))
    ensures var cells := GridColumns(e, inc, c0, nc, nr);
            && |cells| == Times(nc - c0, nr)
            && (forall c :: c in cells <==>
                  exists col: nat, row: nat :: c0 <= col < nc && row < nr && c == GridCell(e, inc, col, row))
            && (forall i, j :: 0 <= i < j < |cells| ==> Before(cells[i], cells[j]))
            && (forall i :: 0 <= i < |cells| - 1 ==> Follows(e, cells[i], cells[i + 1]))
  {
    var column := GridColumn(e, inc, c0, nr);
    var rest := GridColumns(e, inc, c0 + 1, nc, nr);
    var cells := GridColumns(e, inc, c0, nc, nr);
    assert cells == column + rest;
    forall c | c in cells
      ensures exists col: nat, row: nat :: c0 <= col < nc && row < nr && c == GridCell(e, inc, col, row)
    {
      if c in column {
        var row :| 0 <= row < nr && column[row] == c;
        assert c == GridCell(e, inc, c0, row);
      }
    }
    forall col: nat, row: nat | c0 <= col < nc && row < nr
      ensures GridCell(e, inc, col, row) in cells
    {
      if col == c0 {
        assert column[row] == GridCell(e, inc, col, row);
      }
    }
    forall i, j | 0 <= i < |column| <= j < |cells|
      ensures Before(cells[i], cells[j])
    {
      assert cells[j] in rest;
      var col: nat, row: nat :| c0 + 1 <= col < nc && row < nr && cells[j] == GridCell(e, inc, col, row);
      OffsetStrictlyIncreasing(e.left, inc, c0, col);
    }
    if 0 < |column| && 0 < |rest| {
      assert rest == GridColumn(e, inc, c0 + 1, nr) + GridColumns(e, inc, c0 + 2, nc, nr);
      assert rest[0] == GridCell(e, inc, c0 + 1, 0);
      OffsetSucc(e.left, inc, c0);
      assert Follows(e, cells[|column| - 1], cells[|column|]);
    }
  }

  /** Two grid cells at different positions do not overlap. */
  lemma GridCellsDisjoint(e: Extent, inc: real, c1: nat, r1: nat, c2: nat, r2: nat)
    requires inc > 0.0 && (c1, r1) != (c2, r2)
    ensures Disjoint(GridCell(e, inc, c1, r1), GridCell(e, inc, c2, r2))
  {
    if c1 < c2 {
      OffsetSucc(e.left, inc, c1);
      if c1 + 1 < c2 {
        OffsetStrictlyIncreasing(e.left, inc, c1 + 1, c2);
      }
    } else if c2 < c1 {
      OffsetSucc(e.left, inc, c2);
      if c2 + 1 < c1 {
        OffsetStrictlyIncreasing(e.left, inc, c2 + 1, c1);
      }
    } else if r1 < r2 {
      OffsetSucc(e.bottom, inc, r1);
      if r1 + 1 < r2 {
        OffsetStrictlyIncreasing(e.bottom, inc, r1 + 1, r2);
      }
    } else {
      OffsetSucc(e.bottom, inc, r2);
      if r2 + 1 < r1 {
        OffsetStrictlyIncreasing(e.bottom, inc, r2 + 1, r1);
      }
    }
  }

  /** The inner loop for column `col` over the row values of the grid, with
      `nr` bracketing the extent's height, yields exactly that column. */
  lemma ColumnOfRows(e: Extent, inc: real, nr: nat, col: nat, ys: seq<real>)
    requires inc > 0.0 && Brackets(e.bottom, e.top, inc, nr)
    requires forall j :: 0 <= j < |ys| ==> ys[j] == Offset(e.bottom, inc, j)
    requires Offset(e.bottom, inc, |ys|) >= e.top
    ensures ColumnBoxes(Offset(e.left, inc, col), inc, e.top, ys, None) == Run(GridColumn(e, inc, col, nr), None)
  {
    var x := Offset(e.left, inc, col);
    ColumnLength(x, inc, e.top, e.bottom, ys, nr);
    ColumnCells(e, inc, nr, col, ys, ColumnBoxes(x, inc, e.top, ys, None).out);
  }

  /** Boxes at `x` over the first `nr` row values are column `col`. */
  lemma ColumnCells(e: Extent, inc: real, nr: nat, col: nat, ys: seq<real>, out: seq<Cell>)
    requires forall j :: 0 <= j < |ys| ==> ys[j] == Offset(e.bottom, inc, j)
    requires |out| == nr <= |ys|
    requires forall j :: 0 <= j < |out| ==>
               out[j] == Cell(Offset(e.left, inc, col), ys[j], Offset(e.left, inc, col) + inc, ys[j] + inc)
    ensures out == GridColumn(e, inc, col, nr)
  {
    var column := GridColumn(e, inc, col, nr);
    forall row | 0 <= row < nr
      ensures out[row] == column[row]
    {
      assert ys[row] == Offset(e.bottom, inc, row);
    }
  }

  /** The inner loop for column `col`, with `nr` bracketing the extent's
      height, yields exactly that column of the grid. */
  lemma ColumnOfGrid(e: Extent, inc: real, nr: nat, col: nat)
    requires inc > 0.0 && Brackets(e.bottom, e.top, inc, nr)
    ensures var ys := Frange(e.bottom, e.top, Some(inc));
            ColumnBoxes(Offset(e.left, inc, col), inc, e.top, ys.out, ys.raised)
              == Run(GridColumn(e, inc, col, nr), None)
  {
    var ys := Frange(e.bottom, e.top, Some(inc));
    assert EffectiveStep(Some(inc)) == inc;
    if nr > 0 {
      OffsetStrictlyIncreasing(e.bottom, inc, 0, nr);
    }
    assert e.bottom <= e.top;
    ColumnOfRows(e, inc, nr, col, ys.out);
  }

  /** The outer loop over the values from column `c0` on: when its first
      column fits, it emits that column of the grid followed by the rest. */
  lemma ColumnsStep(e: Extent, inc: real, nc: nat, nr: nat, c0: nat, xs: seq<real>)
    requires inc > 0.0 && Brackets(e.left, e.right, inc, nc) && Brackets(e.bottom, e.top, inc, nr)
    requires c0 < nc && 0 < |xs| && xs[0] == Offset(e.left, inc, c0)
    ensures Columns(xs, None, e, inc).out == GridColumn(e, inc, c0, nr) + Columns(xs[1..], None, e, inc).out
    ensures Columns(xs, None, e, inc).raised == Columns(xs[1..], None, e, inc).raised
  {
    OffsetSucc(e.left, inc, c0);
    FitsIff(e.left, e.right, inc, nc, c0 + 1);
    assert xs[0] + inc <= e.right;
    var ys := Frange(e.bottom, e.top, Some(inc));
    ColumnOfGrid(e, inc, nr, c0);
    assert ColumnBoxes(xs[0], inc, e.top, ys.out, ys.raised) == Run(GridColumn(e, inc, c0, nr), None);
  }

  /** The outer loop past the last whole column emits nothing. */
  lemma ColumnsStop(e: Extent, inc: real, nc: nat, xs: seq<real>)
    requires inc > 0.0 && Brackets(e.left, e.right, inc, nc)
    requires 0 < |xs| && xs[0] == Offset(e.left, inc, nc)
    ensures Columns(xs, None, e, inc) == Run([], None)
  {
    OffsetSucc(e.left, inc, nc);
  }

  /** `xs` holds the values of the outer range from column `c0` on. */
  predicate Aligned(lo: real, inc: real, c0: nat, xs: seq<real>) {
    forall i :: 0 <= i < |xs| ==> xs[i] == Offset(lo, inc, c0 + i)
  }

  lemma ShiftValues(lo: real, inc: real, c0: nat, xs: seq<real>)
    requires 0 < |xs| && Aligned(lo, inc, c0, xs)
    ensures xs[0] == Offset(lo, inc, c0)
    ensures Aligned(lo, inc, c0 + 1, xs[1..])
  {
    forall i | 0 <= i < |xs[1..]|
      ensures xs[1..][i] == Offset(lo, inc, c0 + 1 + i)
    {
      assert xs[1..][i] == xs[i + 1];
    }
  }

  lemma ColumnsDone(e: Extent, inc: real, nc: nat, nr: nat, xs: seq<real>)
    requires inc > 0.0 && Brackets(e.left, e.right, inc, nc)
    requires 0 < |xs| ==> xs[0] == Offset(e.left, inc, nc)
    ensures Columns(xs, None, e, inc) == Run(GridColumns(e, inc, nc, nc, nr), None)
  {
    if 0 < |xs| {
      ColumnsStop(e, inc, nc, xs);
    }
  }

  lemma ColumnsCons(e: Extent, inc: real, nc: nat, nr: nat, c0: nat, xs: seq<real>)
    requires inc > 0.0 && Brackets(e.left, e.right, inc, nc) && Brackets(e.bottom, e.top, inc, nr)
    requires c0 < nc && 0 < |xs| && xs[0] == Offset(e.left, inc, c0)
    requires Columns(xs[1..], None, e, inc) == Run(GridColumns(e, inc, c0 + 1, nc, nr), None)
    ensures Columns(xs, None, e, inc) == Run(GridColumns(e, inc, c0, nc, nr), None)
  {
    ColumnsStep(e, inc, nc, nr, c0, xs);
  }

  /** The outer loop, started at column `c0` of the grid, yields the columns
      `c0 .. nc - 1` of the grid and does not raise. */
  lemma {:induction false} ColumnsOfGrid(e: Extent, inc: real, nc: nat, nr: nat, c0: nat, xs: seq<real>)
    requires inc > 0.0 && Brackets(e.left, e.right, inc, nc) && Brackets(e.bottom, e.top, inc, nr)
    requires c0 <= nc <= c0 + |xs|
    requires Aligned(e.left, inc, c0, xs)
    ensures Columns(xs, None, e, inc) == Run(GridColumns(e, inc, c0, nc, nr), None)
    decreases |xs|, 1
  {
    if c0 < nc {
      ColumnsOfGridStep(e, inc, nc, nr, c0, xs);
    } else {
      ColumnsDone(e, inc, nc, nr, xs);
    }
  }

  lemma {:induction false} ColumnsOfGridStep(e: Extent, inc: real, nc: nat, nr: nat, c0: nat, xs: seq<real>)
    requires inc > 0.0 && Brackets(e.left, e.right, inc, nc) && Brackets(e.bottom, e.top, inc, nr)
    requires c0 < nc <= c0 + |xs|
    requires Aligned(e.left, inc, c0, xs)
    ensures Columns(xs, None, e, inc) == Run(GridColumns(e, inc, c0, nc, nr), None)
    decreases |xs|, 0
  {
    ShiftValues(e.left, inc, c0, xs);
    ColumnsOfGrid(e, inc, nc, nr, c0 + 1, xs[1..]);
    ColumnsCons(e, inc, nc, nr, c0, xs);
  }

  /** Under exact arithmetic, `box_coords` yields precisely the reference
      grid of floor((right-left)/inc) columns of floor((top-bottom)/inc)
      cells, column by column, each column bottom to top, and does not raise. */
  lemma BoxCoordsIsGrid(e: Extent, inc: real)
    requires ValidGrid(e, inc)
    ensures BoxCoords(e, inc) == Run(GridCells(e, inc, NumColumns(e, inc), NumRows(e, inc)), None)
  {
    var xs := Frange(e.left, e.right, Some(inc));
    var nc := NumColumns(e, inc);
    var nr := NumRows(e, inc);
    FitBounds(e.left, e.right, inc);
    FitBounds(e.bottom, e.top, inc);
    if |xs.out| < nc {
      OffsetStrictlyIncreasing(e.left, inc, |xs.out|, nc);
    }
    ColumnsOfGrid(e, inc, nc, nr, 0, xs.out);
  }

  // ---------------------------------------------------------------------------
  // Properties of box_coords
  // ---------------------------------------------------------------------------

  /** `box_coords` yields floor((right-left)/inc) * floor((top-bottom)/inc)
      boxes and raises nothing on a well-formed extent. */
  lemma BoxCount(e: Extent, inc: real)
    requires ValidGrid(e, inc)
    ensures BoxCoords(e, inc).raised.None?
    ensures |BoxCoords(e, inc).out| == ((e.right - e.left) / inc).Floor * ((e.top - e.bottom) / inc).Floor
  {
    var nc := NumColumns(e, inc);
    var nr := NumRows(e, inc);
    BoxCoordsIsGrid(e, inc);
    GridColumnsLength(e, inc, 0, nc, nr);
    TimesIsProduct(nc, nr);
  }

  /** The boxes come in column-major order: left to right by column, bottom
      to top within a column; each box either sits on the previous one or
      starts the next column, flush against it, at the bottom edge. */
  lemma BoxOrder(e: Extent, inc: real)
    requires ValidGrid(e, inc)
    ensures var cells := BoxCoords(e, inc).out;
            && (forall i, j :: 0 <= i < j < |cells| ==> Before(cells[i], cells[j]))
            && (forall i :: 0 <= i < |cells| - 1 ==> Follows(e, cells[i], cells[i + 1]))
  {
    BoxCoordsIsGrid(e, inc);
    GridColumnsShape(e, inc, 0, NumColumns(e, inc), NumRows(e, inc));
  }

  /** No two boxes overlap. */
  lemma BoxesDisjoint(e: Extent, inc: real)
    requires ValidGrid(e, inc)
    ensures var cells := BoxCoords(e, inc).out;
            forall i, j :: 0 <= i < |cells| && 0 <= j < |cells| && i != j ==> Disjoint(cells[i], cells[j])
  {
    var nc := NumColumns(e, inc);
    var nr := NumRows(e, inc);
    var cells := BoxCoords(e, inc).out;
    BoxCoordsIsGrid(e, inc);
    GridColumnsShape(e, inc, 0, nc, nr);
    forall i, j | 0 <= i < |cells| && 0 <= j < |cells| && i != j
      ensures Disjoint(cells[i], cells[j])
    {
      assert cells[i] in cells && cells[j] in cells;
      var c1: nat, r1: nat :| c1 < nc && r1 < nr && cells[i] == GridCell(e, inc, c1, r1);
      var c2: nat, r2: nat :| c2 < nc && r2 < nr && cells[j] == GridCell(e, inc, c2, r2);
      if i < j {
        assert Before(cells[i], cells[j]);
      } else {
        assert Before(cells[j], cells[i]);
      }
      GridCellsDisjoint(e, inc, c1, r1, c2, r2);
    }
  }

  /** The point (px, py) lies in the closed-open box `c`. */
  predicate Contains(c: Cell, px: real, py: real) {
    c.xMin <= px < c.xMax && c.yMin <= py < c.yMax
  }

  /** On every valid extent, empty grids included, the grid's right edge
      lies within `inc` of the extent's right side and its top edge within
      `inc` of the top, never beyond either. */
  lemma GridEdges(e: Extent, inc: real)
    requires ValidGrid(e, inc)
    ensures e.right - inc < Offset(e.left, inc, NumColumns(e, inc)) <= e.right
    ensures e.top - inc < Offset(e.bottom, inc, NumRows(e, inc)) <= e.top
  {
    FitBounds(e.left, e.right, inc);
    FitBounds(e.bottom, e.top, inc);
    OffsetSucc(e.left, inc, NumColumns(e, inc));
    OffsetSucc(e.bottom, inc, NumRows(e, inc));
  }

  /** The boxes cover the extent except for a strip narrower than `inc` on the
      right and a strip lower than `inc` on top: every point left of
      left + nc*inc and below bottom + nr*inc lies in some box.  When the
      extent's sides are whole multiples of `inc` there is no strip. */
  lemma BoxesCover(e: Extent, inc: real, px: real, py: real)
    requires ValidGrid(e, inc)
    requires e.left <= px < Offset(e.left, inc, NumColumns(e, inc))
    requires e.bottom <= py < Offset(e.bottom, inc, NumRows(e, inc))
    ensures e.right - inc < Offset(e.left, inc, NumColumns(e, inc)) <= e.right
    ensures e.top - inc < Offset(e.bottom, inc, NumRows(e, inc)) <= e.top
    ensures exists i :: 0 <= i < |BoxCoords(e, inc).out| && Contains(BoxCoords(e, inc).out[i], px, py)
  {
    var nc := NumColumns(e, inc);
    var nr := NumRows(e, inc);
    GridEdges(e, inc);
    FitBounds(e.left, e.right, inc);
    FitBounds(e.bottom, e.top, inc);
    var col := Fit(e.left, px, inc);
    var row := Fit(e.bottom, py, inc);
    FitBounds(e.left, px, inc);
    FitBounds(e.bottom, py, inc);
    FitsIff(e.left, px, inc, col, nc);
    FitsIff(e.bottom, py, inc, row, nr);
    OffsetSucc(e.left, inc, col);
    OffsetSucc(e.bottom, inc, row);
    BoxCoordsIsGrid(e, inc);
    GridColumnsShape(e, inc, 0, nc, nr);
    var cells := BoxCoords(e, inc).out;
    assert GridCell(e, inc, col, row) in cells;
    var i :| 0 <= i < |cells| && cells[i] == GridCell(e, inc, col, row);
    assert Contains(cells[i], px, py);
  }

  /** `n` whole increments span exactly from `lo` to `hi`. */
  lemma ExactFit(lo: real, hi: real, inc: real, n: nat)
    requires inc > 0.0 && hi == Offset(lo, inc, n)
    ensures lo <= hi && Fit(lo, hi, inc) == n
  {
    if n > 0 {
      OffsetStrictlyIncreasing(lo, inc, 0, n);
    }
    FitBounds(lo, hi, inc);
    OffsetSucc(lo, inc, n);
    FitsIff(lo, hi, inc, Fit(lo, hi, inc), n);
    FitsIff(lo, hi, inc, n, Fit(lo, hi, inc));
  }

  /** When width and height are whole multiples of the increment the boxes
      cover the extent: every point of it lies in some box. */
  lemma ExactMultiplesCover(e: Extent, inc: real, cols: nat, rows: nat, px: real, py: real)
    requires inc > 0.0 && e.right == Offset(e.left, inc, cols) && e.top == Offset(e.bottom, inc, rows)
    requires e.left <= px < e.right && e.bottom <= py < e.top
    ensures ValidGrid(e, inc)
    ensures exists i :: 0 <= i < |BoxCoords(e, inc).out| && Contains(BoxCoords(e, inc).out[i], px, py)
  {
    ExactFit(e.left, e.right, inc, cols);
    ExactFit(e.bottom, e.top, inc, rows);
    BoxesCover(e, inc, px, py);
  }

  /** A 3 by 2 extent with increment 1 yields six unit boxes. */
  lemma ThreeByTwo()
    ensures |BoxCoords(Extent(2.0, 0.0, 0.0, 3.0), 1.0).out| == 6
  {
    var e := Extent(2.0, 0.0, 0.0, 3.0);
    BoxCount(e, 1.0);
    assert (e.right - e.left) / 1.0 == 3.0;
    assert (e.top - e.bottom) / 1.0 == 2.0;
  }

  /** A zero-width or zero-height extent yields no boxes and no exception. */
  lemma EmptyExtent(e: Extent, inc: real)
    requires inc > 0.0 && e.bottom <= e.top && e.left <= e.right
    requires e.left == e.right || e.bottom == e.top
    ensures BoxCoords(e, inc) == Run([], None)
  {
    BoxCount(e, inc);
  }

  /** A missing step and a zero step both make `frange` count by 1.0. */
  lemma FrangeDefaultStep(start: real, stop: real)
    ensures Frange(start, stop, None) == Frange(start, stop, Some(1.0))
    ensures Frange(start, stop, Some(0.0)) == Frange(start, stop, Some(1.0))
  {
  }

  /** An increment of zero is not rejected: the generator steps by 1.0 and
      yields zero-area boxes. */
  lemma ZeroIncrementDegenerate()
    ensures BoxCoords(Extent(1.0, 0.0, 0.0, 1.0), 0.0) == Run([Cell(0.0, 0.0, 0.0, 0.0)], None)
  {
    var e := Extent(1.0, 0.0, 0.0, 1.0);
    assert Accumulate(1.0, 1.0, 1.0) == [];
    assert Accumulate(0.0, 1.0, 1.0) == [0.0];
    assert Frange(0.0, 1.0, Some(0.0)) == Run([0.0], None);
    assert ColumnBoxes(0.0, 0.0, 1.0, [0.0], None) == Run([Cell(0.0, 0.0, 0.0, 0.0)], None);
    assert Columns([0.0], None, e, 0.0) == Run([Cell(0.0, 0.0, 0.0, 0.0)], None);
  }
}

=== FILE: identifiers.dfy ===
/** The `table.column` identifiers of the command line: Python's
    `str.split(".")` and the two pieces `main` takes from it. */
module Identifiers {
  import opened Runs

  /** The position of the first `c` in `s`. */
  function Find(s: string, c: char): (i: nat)
    requires c in s
    ensures i < |s| && s[i] == c && c !in s[..i]
  {
    if s[0] == c then 0
    else
      var k := Find(s[1..], c);
      assert s[..k + 1] == [s[0]] + s[1..][..k];
      k + 1
  }

  /** Python's `s.split(sep)` for a one-character separator: the pieces
      between separators, in order, always at least one. */
  function Split(s: string, sep: char): (parts: seq<string>)
    ensures |parts| >= 1
    ensures |parts| >= 2 <==> sep in s
    ensures forall p :: p in parts ==> sep !in p
    decreases |s|
  {
    if sep !in s then [s]
    else
      var i := Find(s, sep);
      assert s == s[..i] + [sep] + s[i + 1..];
      [s[..i]] + Split(s[i + 1..], sep)
  }

  /** There is one more piece than there are separators. */
  lemma {:induction false} SplitCount(s: string, sep: char)
    ensures |Split(s, sep)| == multiset(s)[sep] + 1
    decreases |s|
  {
    if sep in s {
      var i := Find(s, sep);
      SplitCount(s[i + 1..], sep);
      assert s == s[..i] + [sep] + s[i + 1..];
    }
  }

  /** Python's `sep.join(parts)`. */
  function Join(parts: seq<string>, sep: char): string
    requires |parts| >= 1
  {
    if |parts| == 1 then parts[0] else parts[0] + [sep] + Join(parts[1..], sep)
  }

  /** Joining the pieces of a split gives back the string. */
  lemma {:induction false} SplitJoin(s: string, sep: char)
    ensures Join(Split(s, sep), sep) == s
    decreases |s|
  {
    if sep in s {
      var i := Find(s, sep);
      SplitJoin(s[i + 1..], sep);
      assert s == s[..i] + [sep] + s[i + 1..];
    }
  }

  /** The first separator after a separator-free prefix is right after it. */
  lemma FindAfter(p: string, rest: string, sep: char)
    requires sep !in p
    ensures var s := p + [sep] + rest;
            sep in s && Find(s, sep) == |p| && s[..|p|] == p && s[|p| + 1..] == rest
  {
    var s := p + [sep] + rest;
    assert s[|p|] == sep;
    var i := Find(s, sep);
    assert forall k :: 0 <= k < |p| ==> s[k] == p[k];
    assert i <= |p|;
    assert i >= |p| by {
      assert forall k :: 0 <= k < |p| ==> s[k] != sep;
    }
    assert s[..|p|] == p;
    assert s[|p| + 1..] == rest;
  }

  /** Splitting a join of separator-free pieces gives back the pieces. */
  lemma {:induction false} JoinSplit(parts: seq<string>, sep: char)
    requires |parts| >= 1
    requires forall p :: p in parts ==> sep !in p
    ensures Split(Join(parts, sep), sep) == parts
    decreases |parts|
  {
    var p := parts[0];
    assert p in parts;
    if |parts| > 1 {
      var tail := parts[1..];
      assert forall q :: q in tail ==> q in parts;
      JoinSplit(tail, sep);
      FindAfter(p, Join(tail, sep), sep);
      assert Split(Join(parts, sep), sep) == [p] + Split(Join(tail, sep), sep);
    }
  }

  /** The first two pieces of a join, with what follows them. */
  lemma JoinFirstTwo(parts: seq<string>, sep: char)
    requires |parts| >= 2
    ensures parts[0] + [sep] + parts[1] <= Join(parts, sep)
  {
    var tail := parts[1..];
    assert Join(parts, sep) == parts[0] + [sep] + Join(tail, sep);
    if |tail| > 1 {
      assert Join(tail, sep) == parts[1] + [sep] + Join(tail[1..], sep);
      assert Join(parts, sep) == (parts[0] + [sep] + parts[1]) + ([sep] + Join(tail[1..], sep));
    }
  }

  /** `ident.split(".")[0]` and `ident.split(".")[1]`: the table and the
      column of a `table.column` identifier.  Without a dot the second
      index raises IndexError. */
  function TableColumn(ident: string): (r: Result<(string, string)>)
    ensures r.Failure? <==> '.' !in ident
    ensures r.Failure? ==> r.error == IndexError
    ensures r.Success? ==> '.' !in r.value.0 && '.' !in r.value.1
    ensures r.Success? ==> r.value.0 + "." + r.value.1 <= ident
    ensures r.Success? ==> var n := |r.value.0| + 1 + |r.value.1|;
                           n == |ident| || ident[n] == '.'
  {
    var parts := Split(ident, '.');
    SplitJoin(ident, '.');
    if |parts| < 2 then Failure(IndexError)
    else
      assert parts[0] in parts && parts[1] in parts;
      JoinFirstTwo(parts, '.');
      Success((parts[0], parts[1]))
  }

  /** A dotted identifier built from a dot-free table and column splits back
      into exactly that table and column. */
  lemma TableColumnRoundTrip(table: string, column: string)
    requires '.' !in table && '.' !in column
    ensures TableColumn(table + "." + column) == Success((table, column))
  {
    assert Join([table, column], '.') == table + "." + column;
    JoinSplit([table, column], '.');
  }
}

=== FILE: pipeline.dfy ===
/** The statement stream `main` prints: one transaction that builds a
    temporary table of grid boxes, clips the input geometries against it,
    and aggregates the clipped fragments per box into the output table.
    Printing is modelled as the returned sequence of statements; each
    statement is an abstract constructor, not its SQL text. */
module Pipeline {
  import opened Runs
  import opened Grid
  import opened Identifiers

  /** EPSG:4326, the reference system of every geometry column and box. */
  const Srid: int := 4326

  /** The two temporary tables of the transaction: `boxes`, holding one row
      (id serial) per grid box, and `ungrouped_output`, holding one row
      (id serial, boxid integer) per clipped fragment. */
  datatype TempTable = Boxes | Ungrouped

  datatype GeometryType = Polygon | MultiPolygon

  /** The aggregate the grouped insert uses: ST_Collect or ST_Union. */
  datatype AggregateFn = StCollect | StUnion

  datatype Stmt =
    | Begin
    | Truncate(table: string)
    | CreateTempTable(temp: TempTable)
      /** AddGeometryColumn on a temporary table: column name, SRID, type
          and number of dimensions. */
    | AddGeometryColumn(temp: TempTable, column: string, srid: int, kind: GeometryType, dims: int)
      /** The GIST index `boxes__box` on the box column. */
    | CreateBoxIndex
      /** The unique index `boxes__id` on the id column. */
    | CreateIdIndex
    | InsertBox(cell: Cell)
      /** The classification insert: join the input table to `boxes` on
          bounding-box overlap and keep one fragment per pair. */
    | InsertFragments(inputTable: string, inputColumn: string)
    | DropTable(temp: TempTable)
      /** INSERT into the output column the fragments grouped by box. */
    | InsertGrouped(table: string, column: string, agg: AggregateFn)
      /** UPDATE the output column to ST_UnaryUnion of itself. */
    | UpdateUnaryUnion(table: string, column: string)
    | Commit

  /** The command-line values `main` reads after parsing. */
  datatype Options = Options(input: string, output: string, aggregate: string, includeTruncate: bool)

  // ---------------------------------------------------------------------------
  // The phases of the stream
  // ---------------------------------------------------------------------------

  /** Open the transaction, optionally empty the output table, and create the
      boxes table with its geometry column and both indexes. */
  function Preamble(outputTable: string, truncate: bool): seq<Stmt> {
    [Begin]
    + (if truncate then [Truncate(outputTable)] else [])
    + [ CreateTempTable(Boxes),
        AddGeometryColumn(Boxes, "box", Srid, Polygon, 2),
        CreateBoxIndex,
        CreateIdIndex ]
  }

  /** One insert per generated box, in generator order. */
  function Inserts(cells: seq<Cell>): seq<Stmt> {
    seq(|cells|, i requires 0 <= i < |cells| => InsertBox(cells[i]))
  }

  /** Create the fragments table, fill it from the join, drop the boxes. */
  function ClassifyPhase(inputTable: string, inputColumn: string): seq<Stmt> {
    [ CreateTempTable(Ungrouped),
      AddGeometryColumn(Ungrouped, "geom", Srid, MultiPolygon, 2),
      InsertFragments(inputTable, inputColumn),
      DropTable(Boxes) ]
  }

  /** The aggregation branch.  `union` after a truncate collects first and
      dissolves in place afterwards, which is cheaper; without a truncate the
      update would also rewrite rows already in the table, so it unions
      directly.  Any other mode raises NotImplementedError. */
  function Aggregation(mode: string, truncate: bool, table: string, column: string): (r: Result<seq<Stmt>>)
    ensures r.Success? <==> mode == "collect" || mode == "union"
    ensures r.Failure? ==> r.error == NotImplementedError
    ensures r.Success? ==> |r.value| == (if mode == "union" && truncate then 2 else 1)
    ensures r.Success? ==> r.value[0].InsertGrouped?
    ensures r.Success? ==> (UpdateUnaryUnion(table, column) in r.value <==> mode == "union" && truncate)
    ensures r.Success? ==> (InsertGrouped(table, column, StUnion) in r.value <==> mode == "union" && !truncate)
    ensures r.Success? ==> forall s :: s in r.value ==> s.InsertGrouped? || s.UpdateUnaryUnion?
    ensures r.Success? ==> forall s :: s in r.value ==> s.table == table && s.column == column
  {
    if mode == "collect" then
      Success([InsertGrouped(table, column, StCollect)])
    else if mode == "union" then
      if truncate then
        Success([InsertGrouped(table, column, StCollect), UpdateUnaryUnion(table, column)])
      else
        Success([InsertGrouped(table, column, StUnion)])
    else
      Failure(NotImplementedError)
  }

  /** Drop the fragments table and commit. */
  function Closing(): seq<Stmt> {
    [DropTable(Ungrouped), Commit]
  }

  // ---------------------------------------------------------------------------
  // main
  // ---------------------------------------------------------------------------

  /** Both identifiers split into a table and a column. */
  predicate IdentifiersOk(opts: Options) {
    '.' in opts.output && '.' in opts.input
  }

  /** The statements `main` prints, and the exception it ends with, given the
      run of the box generator.  Both identifiers are split before anything
      is printed; the generator is consumed lazily, so an exception it raises
      surfaces after the preamble and the inserts before it. */
  function Script(opts: Options, cells: Run<Cell>): (r: Run<Stmt>)
    ensures r.Completed() <==>
              IdentifiersOk(opts) && cells.Completed() && opts.aggregate in {"collect", "union"}
    ensures !IdentifiersOk(opts) ==> r == Run([], Some(IndexError))
    ensures IdentifiersOk(opts) && cells.raised.Some? ==> r.raised == cells.raised
  {
    match TableColumn(opts.output)
    case Failure(err) => Run([], Some(err))
    case Success(out) =>
      match TableColumn(opts.input)
      case Failure(err) => Run([], Some(err))
      case Success(inp) =>
        var head := Preamble(out.0, opts.includeTruncate) + Inserts(cells.out);
        if cells.raised.Some? then Run(head, cells.raised)
        else
          var body := head + ClassifyPhase(inp.0, inp.1);
          match Aggregation(opts.aggregate, opts.includeTruncate, out.0, out.1)
          case Failure(err) => Run(body, Some(err))
          case Success(agg) => Run(body + agg + Closing(), None)
  }

  /** `main` on an extent and increment: the script over `box_coords`. */
  function Main(opts: Options, e: Extent, inc: real): (r: Run<Stmt>)
    requires inc >= 0.0 || e.left >= e.right
    ensures !IdentifiersOk(opts) ==> r == Run([], Some(IndexError))
    ensures IdentifiersOk(opts) ==> BoxesInserted(r.out) == BoxCoords(e, inc).out
    ensures r.Completed() <==>
              IdentifiersOk(opts) && BoxCoords(e, inc).Completed() && opts.aggregate in {"collect", "union"}
  {
    if IdentifiersOk(opts) then
      ScriptInsertsEveryBox(opts, BoxCoords(e, inc));
      Script(opts, BoxCoords(e, inc))
    else
      Script(opts, BoxCoords(e, inc))
  }

  // ---------------------------------------------------------------------------
  // Shape of the stream
  // ---------------------------------------------------------------------------

  /** The boxes of the InsertBox statements of a stream, in order. */
  function BoxesInserted(stmts: seq<Stmt>): seq<Cell>
    decreases |stmts|
  {
    if |stmts| == 0 then []
    else (if stmts[0].InsertBox? then [stmts[0].cell] else []) + BoxesInserted(stmts[1..])
  }

  lemma {:induction false} BoxesInsertedAppend(a: seq<Stmt>, b: seq<Stmt>)
    ensures BoxesInserted(a + b) == BoxesInserted(a) + BoxesInserted(b)
    decreases |a|
  {
    if |a| > 0 {
      assert (a + b)[1..] == a[1..] + b;
      BoxesInsertedAppend(a[1..], b);
    } else {
      assert a + b == b;
    }
  }

  lemma {:induction false} BoxesInsertedNone(stmts: seq<Stmt>)
    requires forall s :: s in stmts ==> !s.InsertBox?
    ensures BoxesInserted(stmts) == []
    decreases |stmts|
  {
    if |stmts| > 0 {
      assert stmts[0] in stmts;
      assert forall s :: s in stmts[1..] ==> s in stmts;
      BoxesInsertedNone(stmts[1..]);
    }
  }

  lemma {:induction false} BoxesInsertedOfInserts(cells: seq<Cell>)
    ensures BoxesInserted(Inserts(cells)) == cells
    decreases |cells|
  {
    if |cells| > 0 {
      assert Inserts(cells)[1..] == Inserts(cells[1..]);
      BoxesInsertedOfInserts(cells[1..]);
    }
  }

  /** The table and column an identifier splits into. */
  function Ident(id: string): (string, string)
    requires '.' in id
  {
    TableColumn(id).value
  }

  /** The statements of a run with both identifiers split, up to the
      aggregation. */
  function Body(opts: Options, cells: seq<Cell>): seq<Stmt>
    requires IdentifiersOk(opts)
  {
    Preamble(Ident(opts.output).0, opts.includeTruncate) + Inserts(cells)
    + ClassifyPhase(Ident(opts.input).0, Ident(opts.input).1)
  }

  lemma ScriptLayout(opts: Options, cells: Run<Cell>)
    requires IdentifiersOk(opts) && cells.Completed()
    ensures var agg := Aggregation(opts.aggregate, opts.includeTruncate, Ident(opts.output).0, Ident(opts.output).1);
            Script(opts, cells).out == Body(opts, cells.out) + (if agg.Success? then agg.value + Closing() else [])
  {
    var agg := Aggregation(opts.aggregate, opts.includeTruncate, Ident(opts.output).0, Ident(opts.output).1);
    if !agg.Success? {
      assert Body(opts, cells.out) + [] == Body(opts, cells.out);
    }
  }

  /** The stream up to the generator's end: the preamble, then one insert
      per box. */
  lemma ScriptHead(opts: Options, cells: Run<Cell>)
    requires IdentifiersOk(opts)
    ensures var out := Script(opts, cells).out;
            var pre := Preamble(Ident(opts.output).0, opts.includeTruncate);
            && out[..|pre| + |cells.out|] == pre + Inserts(cells.out)
            && out[0] == Begin
            && (out[1].Truncate? <==> opts.includeTruncate)
            && (opts.includeTruncate ==> out[1] == Truncate(Ident(opts.output).0))
  {
  }

  lemma BoxesInsertedLayout(pre: seq<Stmt>, cells: seq<Cell>, tail: seq<Stmt>)
    requires forall s :: s in pre ==> !s.InsertBox?
    requires forall s :: s in tail ==> !s.InsertBox?
    ensures BoxesInserted(pre + Inserts(cells) + tail) == cells
  {
    BoxesInsertedNone(pre);
    BoxesInsertedNone(tail);
    BoxesInsertedOfInserts(cells);
    BoxesInsertedAppend(pre, Inserts(cells));
    BoxesInsertedAppend(pre + Inserts(cells), tail);
  }

  lemma InsertsBeforeFragments(pre: seq<Stmt>, cells: seq<Cell>, tail: seq<Stmt>)
    requires forall s :: s in pre ==> !s.InsertBox? && !s.InsertFragments?
    requires forall s :: s in tail ==> !s.InsertBox?
    ensures var out := pre + Inserts(cells) + tail;
            forall i, j :: 0 <= i < |out| && 0 <= j < |out| && out[i].InsertBox? && out[j].InsertFragments? ==> i < j
  {
  }

  /** Every box the generator yields is inserted, once, in generator order,
      and every insert comes before the classification insert. */
  lemma ScriptInsertsEveryBox(opts: Options, cells: Run<Cell>)
    requires IdentifiersOk(opts)
    ensures var out := Script(opts, cells).out;
            && BoxesInserted(out) == cells.out
            && forall i, j :: 0 <= i < |out| && 0 <= j < |out| && out[i].InsertBox? && out[j].InsertFragments? ==> i < j
  {
    var tail := ScriptTail(opts, cells);
    BoxesInsertedLayout(Preamble(Ident(opts.output).0, opts.includeTruncate), cells.out, tail);
    InsertsBeforeFragments(Preamble(Ident(opts.output).0, opts.includeTruncate), cells.out, tail);
  }

  /** What follows the inserts holds no insert of its own. */
  lemma ScriptTail(opts: Options, cells: Run<Cell>) returns (tail: seq<Stmt>)
    requires IdentifiersOk(opts)
    ensures Script(opts, cells).out == Preamble(Ident(opts.output).0, opts.includeTruncate) + Inserts(cells.out) + tail
    ensures forall s :: s in tail ==> !s.InsertBox?
  {
    tail := [];
    if cells.raised.None? {
      ScriptLayout(opts, cells);
      var agg := Aggregation(opts.aggregate, opts.includeTruncate, Ident(opts.output).0, Ident(opts.output).1);
      tail := ClassifyPhase(Ident(opts.input).0, Ident(opts.input).1) + (if agg.Success? then agg.value + Closing() else []);
    }
  }

  /** A finished stream `out` is one transaction whose classification
      insert sits at index `k`: BEGIN first and COMMIT last, each exactly
      once; the fragments table and its geometry column are created just
      before the classification insert; the one classification insert is followed at once by the drop of
      the boxes table; the aggregation statements come after that drop and
      before the drop of the fragments table that precedes COMMIT. */
  predicate Transaction(out: seq<Stmt>, k: nat, it: string, ic: string) {
    && 2 <= k && |out| >= k + 4
    && out[0] == Begin && (forall i :: 0 <= i < |out| && out[i] == Begin ==> i == 0)
    && out[|out| - 1] == Commit && (forall i :: 0 <= i < |out| && out[i] == Commit ==> i == |out| - 1)
    && out[|out| - 2] == DropTable(Ungrouped)
    && out[k - 2] == CreateTempTable(Ungrouped)
    && out[k - 1] == AddGeometryColumn(Ungrouped, "geom", Srid, MultiPolygon, 2)
    && out[k] == InsertFragments(it, ic)
    && out[k + 1] == DropTable(Boxes)
    && (forall i :: 0 <= i < |out| && out[i].InsertFragments? ==> i == k)
    && (forall i :: 0 <= i < |out| && out[i] == DropTable(Boxes) ==> i == k + 1)
    && (forall i :: 0 <= i < |out| && (out[i].InsertGrouped? || out[i].UpdateUnaryUnion?) ==>
          k + 1 < i < |out| - 2)
  }

  /** What the statements before the classification may not contain. */
  predicate Head(x: seq<Stmt>) {
    && |x| >= 1 && x[0] == Begin && Begin !in x[1..] && Commit !in x
    && DropTable(Boxes) !in x
    && forall s :: s in x ==> !s.InsertFragments? && !s.InsertGrouped? && !s.UpdateUnaryUnion?
  }

  lemma TransactionLayout(out: seq<Stmt>, k: nat, x: seq<Stmt>, it: string, ic: string, agg: seq<Stmt>)
    requires Head(x)
    requires forall s :: s in agg ==> s.InsertGrouped? || s.UpdateUnaryUnion?
    requires out == x + ClassifyPhase(it, ic) + agg + Closing() && k == |x| + 2
    ensures Transaction(out, k, it, ic)
    ensures out[k + 2 .. |out| - 2] == agg
  {
    assert out[k + 2 .. |out| - 2] == agg;
    forall i | 0 <= i < |out|
      ensures out[i] == Begin ==> i == 0
      ensures out[i] == Commit ==> i == |out| - 1
      ensures out[i].InsertFragments? ==> i == |x| + 2
      ensures out[i] == DropTable(Boxes) ==> i == |x| + 3
      ensures out[i].InsertGrouped? || out[i].UpdateUnaryUnion? ==> |x| + 3 < i < |out| - 2
    {
      if i < |x| {
        assert out[i] in x;
        if 0 < i {
          assert out[i] == x[1..][i - 1];
        }
      } else if i < |x| + 4 {
      } else if i < |out| - 2 {
        assert out[i] == agg[i - |x| - 4];
        assert out[i] in agg;
      }
    }
  }

  lemma PreambleInsertsHead(pre: seq<Stmt>, outputTable: string, truncate: bool, cells: seq<Cell>)
    requires pre == Preamble(outputTable, truncate)
    ensures Head(pre + Inserts(cells))
  {
    var x := pre + Inserts(cells);
    assert x[1..] == pre[1..] + Inserts(cells);
    assert forall s :: s in Inserts(cells) ==> s.InsertBox?;
  }

  /** A finished run split at the classification phase: the preamble with
      the box inserts, then the classification, the aggregation and the
      closing statements. */
  lemma ScriptParts(opts: Options, cells: Run<Cell>) returns (x: seq<Stmt>, agg: seq<Stmt>)
    requires Script(opts, cells).Completed()
    ensures Script(opts, cells).out == x + ClassifyPhase(Ident(opts.input).0, Ident(opts.input).1) + agg + Closing()
    ensures |x| == |Preamble(Ident(opts.output).0, opts.includeTruncate)| + |cells.out|
    ensures Head(x)
    ensures agg == Aggregation(opts.aggregate, opts.includeTruncate, Ident(opts.output).0, Ident(opts.output).1).value
    ensures forall s :: s in agg ==> s.InsertGrouped? || s.UpdateUnaryUnion?
  {
    ScriptLayout(opts, cells);
    var pre := Preamble(Ident(opts.output).0, opts.includeTruncate);
    x := pre + Inserts(cells.out);
    agg := Aggregation(opts.aggregate, opts.includeTruncate, Ident(opts.output).0, Ident(opts.output).1).value;
    PreambleInsertsHead(pre, Ident(opts.output).0, opts.includeTruncate, cells.out);
  }

  /** A finished run is one transaction (see `Transaction`) whose
      classification insert follows the preamble and one insert per box. */
  lemma ScriptTransaction(opts: Options, cells: Run<Cell>)
    requires Script(opts, cells).Completed()
    ensures Transaction(Script(opts, cells).out,
                        |Preamble(Ident(opts.output).0, opts.includeTruncate)| + |cells.out| + 2,
                        Ident(opts.input).0, Ident(opts.input).1)
    ensures var out := Script(opts, cells).out;
            var k := |Preamble(Ident(opts.output).0, opts.includeTruncate)| + |cells.out| + 2;
            out[k + 2 .. |out| - 2]
              == Aggregation(opts.aggregate, opts.includeTruncate, Ident(opts.output).0, Ident(opts.output).1).value
  {
    var x, agg := ScriptParts(opts, cells);
    TransactionLayout(Script(opts, cells).out, |x| + 2, x, Ident(opts.input).0, Ident(opts.input).1, agg);
  }

  /** An aggregation mode other than collect or union ends the run with
      NotImplementedError right after the boxes table is dropped: the
      fragments table is never dropped and the transaction never committed. */
  lemma ScriptUnsupportedAggregation(opts: Options, cells: Run<Cell>)
    requires IdentifiersOk(opts) && cells.Completed()
    requires opts.aggregate != "collect" && opts.aggregate != "union"
    ensures var r := Script(opts, cells);
            && r == Run(Body(opts, cells.out), Some(NotImplementedError))
            && r.out[|r.out| - 1] == DropTable(Boxes)
            && BoxesInserted(r.out) == cells.out
            && Commit !in r.out
            && DropTable(Ungrouped) !in r.out
  {
    ScriptInsertsEveryBox(opts, cells);
    ScriptLayout(opts, cells);
    assert Commit !in Inserts(cells.out);
    assert DropTable(Ungrouped) !in Inserts(cells.out);
  }

  /** When the generator raises (an extent with bottom above top), the run
      ends with that exception right after the preamble and the inserts
      before it: no classification, no aggregation, no COMMIT. */
  lemma ScriptGridFailure(opts: Options, cells: Run<Cell>)
    requires IdentifiersOk(opts) && cells.raised.Some?
    ensures var r := Script(opts, cells);
            && r.raised == cells.raised
            && r.out == Preamble(Ident(opts.output).0, opts.includeTruncate) + Inserts(cells.out)
            && Commit !in r.out
            && forall s :: s in r.out ==> !s.InsertFragments?
  {
    assert Commit !in Inserts(cells.out);
    assert forall s :: s in Inserts(cells.out) ==> s.InsertBox?;
  }

  /** On a well-formed extent `main` inserts exactly
      floor((right-left)/inc) * floor((top-bottom)/inc) boxes, the grid's, in
      column-major order, and commits whenever the aggregation mode is known. */
  lemma MainInsertsGrid(opts: Options, e: Extent, inc: real)
    requires IdentifiersOk(opts) && ValidGrid(e, inc)
    ensures var r := Main(opts, e, inc);
            && BoxesInserted(r.out) == BoxCoords(e, inc).out
            && |BoxesInserted(r.out)| == ((e.right - e.left) / inc).Floor * ((e.top - e.bottom) / inc).Floor
            && (r.Completed() <==> opts.aggregate == "collect" || opts.aggregate == "union")
  {
    BoxCount(e, inc);
    ScriptInsertsEveryBox(opts, BoxCoords(e, inc));
  }

  /** A zero-area extent still gives a complete, empty transaction. */
  lemma MainEmptyExtent(opts: Options, e: Extent, inc: real)
    requires IdentifiersOk(opts) && opts.aggregate in {"collect", "union"}
    requires inc > 0.0 && e.left <= e.right && e.bottom <= e.top
    requires e.left == e.right || e.bottom == e.top
    ensures var r := Main(opts, e, inc);
            && r.Completed()
            && BoxesInserted(r.out) == []
            && r.out[0] == Begin && r.out[|r.out| - 1] == Commit
  {
    EmptyExtent(e, inc);
    ScriptInsertsEveryBox(opts, BoxCoords(e, inc));
    ScriptTransaction(opts, BoxCoords(e, inc));
  }

  // ---------------------------------------------------------------------------
  // What the aggregation writes
  // ---------------------------------------------------------------------------

  /** A row of the output column read as a multi-geometry: its parts, each a
      set of points. */
  type Row<P> = seq<set<P>>

  /** All the points of a multi-geometry. */
  function Points<P>(parts: Row<P>): set<P>
    decreases |parts|
  {
    if |parts| == 0 then {} else parts[0] + Points(parts[1..])
  }

  /** The effect of one statement on the output table, given the fragments
      grouped by box.  ST_Collect keeps every fragment as a part; ST_Union
      and ST_UnaryUnion dissolve the parts into one; TRUNCATE empties the
      table; the other statements leave it alone. */
  function Effect<P>(s: Stmt, table: seq<Row<P>>, groups: seq<Row<P>>): seq<Row<P>> {
    match s
    case Truncate(_) => []
    case InsertGrouped(_, _, StCollect) => table + groups
    case InsertGrouped(_, _, StUnion) =>
      table + seq(|groups|, i requires 0 <= i < |groups| => [Points(groups[i])])
    case UpdateUnaryUnion(_, _) =>
      seq(|table|, i requires 0 <= i < |table| => [Points(table[i])])
    case _ => table
  }

  function EffectAll<P>(stmts: seq<Stmt>, table: seq<Row<P>>, groups: seq<Row<P>>): seq<Row<P>>
    decreases |stmts|
  {
    if |stmts| == 0 then table else EffectAll(stmts[1..], Effect(stmts[0], table, groups), groups)
  }

  /** The two `union` paths write the same rows into a freshly truncated
      table: one dissolved geometry per box. */
  lemma UnionPathsAgree<P>(table: string, column: string, groups: seq<Row<P>>)
    ensures var viaCollect := EffectAll(Aggregation("union", true, table, column).value, [], groups);
            var direct := EffectAll(Aggregation("union", false, table, column).value, [], groups);
            && viaCollect == direct
            && |direct| == |groups|
            && forall i :: 0 <= i < |groups| ==> direct[i] == [Points(groups[i])]
  {
    var stmts := Aggregation("union", true, table, column).value;
    var collected := Effect(InsertGrouped(table, column, StCollect), [], groups);
    assert stmts[1..] == [UpdateUnaryUnion(table, column)];
    assert EffectAll(stmts, [], groups) == EffectAll(stmts[1..], collected, groups);
    assert EffectAll(stmts[1..], collected, groups) == Effect(UpdateUnaryUnion(table, column), collected, groups);
    assert [] + groups == groups;
    var one := Aggregation("union", false, table, column).value;
    assert one[1..] == [];
    assert EffectAll(one, [], groups) == Effect(InsertGrouped(table, column, StUnion), [], groups);
  }

  /** `union` without a truncate appends dissolved rows and keeps every row
      already in the table, so a rerun over the same extent adds a second row
      for each box. */
  lemma UnionWithoutTruncateAppends<P>(table: string, column: string, rows: seq<Row<P>>, groups: seq<Row<P>>)
    ensures var after := EffectAll(Aggregation("union", false, table, column).value, rows, groups);
            && |after| == |rows| + |groups|
            && after[..|rows|] == rows
  {
  }

  /** `collect` and `union` cover the same points in each box's row; `union`
      makes one part of them, `collect` keeps one part per fragment. */
  lemma CollectAndUnionCoverSamePoints<P>(table: string, column: string, groups: seq<Row<P>>)
    ensures var collected := EffectAll(Aggregation("collect", false, table, column).value, [], groups);
            var unioned := EffectAll(Aggregation("union", false, table, column).value, [], groups);
            && |collected| == |unioned| == |groups|
            && forall i :: 0 <= i < |groups| ==>
                 collected[i] == groups[i] && unioned[i] == [Points(groups[i])]
                 && Points(collected[i]) == Points(unioned[i])
  {
    var c := Aggregation("collect", false, table, column).value;
    var u := Aggregation("union", false, table, column).value;
    assert c[1..] == [] && u[1..] == [];
    assert EffectAll(c, [], groups) == [] + groups;
    assert EffectAll(u, [], groups) == [] + seq(|groups|, i requires 0 <= i < |groups| => [Points(groups[i])]);
    forall i | 0 <= i < |groups|
      ensures Points([Points(groups[i])]) == Points(groups[i])
    {
      assert [Points(groups[i])][1..] == [];
    }
  }
}

=== FILE: runs.dfy ===
/** Shared vocabulary for the behaviour of a Python routine run to completion:
    the values it produced, in order, and the exception (if any) it ended with. */
module Runs {

  datatype Option<+T> = None | Some(value: T)

  /** The Python exceptions the modelled code can raise. */
  datatype Exception =
    | AssertionError        // a failed `assert` inside `frange`
    | IndexError            // `split(".")[1]` on an identifier without a dot
    | NotImplementedError   // an aggregation mode other than collect/union

  /** One finished run of a generator (the values it yielded) or of a printing
      routine (the lines it printed).  Output produced before an exception is
      kept: a generator may yield and then raise, and lines already printed
      stay printed. */
  datatype Run<+T> = Run(out: seq<T>, raised: Option<Exception>) {

    /** True when the run ended normally, without an exception. */
    predicate Completed() {
      raised.None?
    }
  }

  /** The outcome of a step that either produces a value or raises. */
  datatype Result<+R> = Success(value: R) | Failure(error: Exception)
}
